=== FILE: README.md ===
# UI form manager: the window-state machine of `UIManager`

This project models the core of the Cocos Creator UI framework's
`UIManager` (`assets/Script/UIFrame/UIManager.ts`): the part that decides
which UI forms are loaded, shown, stacked or hidden when the game calls
`ShowUIForms(name)` or `CloseUIForms(name)`.

The manager keeps four tables:

- the name-to-prefab-path table (`_MapFormsPaths`), here part of `Loading.Config`;
- the cache of loaded forms (`_MapAllUIForms`), here `State.all`;
- the map of forms currently shown (`_MapCurrentShowUIForms`), here `State.shown`;
- the reverse-switch stack (`_StaCurrentUIForms`), here `State.stack`, with its top at the end.

Each loaded form carries a show mode (`Normal`, `ReverseChange`, `HideOther`)
and an `IsClearStack` flag. The manager sends four callbacks to forms:
`DisPlay`, `Hiding`, `ReDisPlay` and `Freeze`. In the model these are the
`Callback` constructors `Display`, `Hiding`, `Redisplay` and `Freeze`.

`Manager.Show` and `Manager.Close` are pure transition functions. Each
returns the new state and the multiset of `(callback, form name)` events
the call sent. The private helpers of `UIManager` each have one function:

- `LoadFormsToAllUIFormsCatch` is `Loading.LoadCached` and `LoadUIForm` is `Loading.LoadForm`;
- `ClearStackArray` is `Manager.Ready`, the state a show dispatches on;
- the six dispatch helpers (`LoadUIToCurrentCache`, `PushUIFormToStack`,
  `EnterUIFormsAndHideOther`, `ExitUIForms`, `PopUIForm`,
  `ExitUIFormsAndDisplayOther`) are in `Transitions`.

Each keeps its own guards, including the ones its callers already make
redundant.

Modules, in dependency order:

- `Forms` (forms.dfy): the data model.
- `Loading` (loading.dfy): path lookup, prefab lookup and the load cache.
- `Events` (events.dfy): callbacks broadcast to a set of shown forms or to the stack.
- `Transitions` (transitions.dfy): one function per dispatch helper.
- `Manager` (manager.dfy): `Show`, `Close`, the stack clearing before a show, and the invariant `Inv`.
- `Properties` (properties.dfy): behaviour per show mode, invariant preservation, show/close round trips.
- `Runs` (runs.dfy): arbitrary sequences of calls from a fresh manager.
- `Scenarios` (scenarios.dfy): one concrete call sequence.

The invariant `Manager.Inv` says three things:

- every shown form is cached, under the same instance, and is not a ReverseChange form;
- every stacked form is a cached ReverseChange form;
- the stack holds at most one entry.

The last point holds because `PushUIFormToStack` pops the current top before
it pushes (`UIManager.ts:170-171`). As a result, the two-entry branch of
`PopUIForm` (`UIManager.ts:223-227`) cannot be reached.

A show of a second ReverseChange form pops the first off the stack and
freezes it (`UIManager.ts:171-172`) before pushing the second. Closing the
second then leaves the stack empty, and the first form is never
redisplayed. `Scenarios.StackHistoryNotKept` shows this on a concrete
two-form configuration.

The JavaScript `null` for a name is `Forms.Option.None`. "No path" is a
name missing from `Config.paths` or mapped to `""`. A prefab without a
`BaseUIForm` component is a path missing from `Config.prefabs`.

## Model

| member | source | states |
|---|---|---|
| Loading.LoadForm | assets/Script/UIFrame/UIManager.ts:106-117 | a form loads exactly when its name has a non-empty path whose prefab carries a form component, and it is that component's configuration |
| Loading.LoadCached | assets/Script/UIFrame/UIManager.ts:93-100 | a cached form is reused with the cache unchanged; on a miss the lookup succeeds exactly when the form loads, and then the cache gains exactly that name and keeps every old entry |
| Events.NotifyAllCount | assets/Script/UIFrame/UIManager.ts:190-192 | a broadcast over the shown map sends the callback exactly once to each shown name and to nothing else |
| Events.NotifyEachCount | assets/Script/UIFrame/UIManager.ts:193-195 | a broadcast over the stack sends the callback to each name as many times as it occurs on the stack, and to nothing else |
| Events.Notified | assets/Script/UIFrame/UIManager.ts:242-248 | a broadcast to the shown map and the stack, plus one callback to another form, reaches a form exactly when it is shown or stacked |
| Transitions.LoadToCurrent | assets/Script/UIFrame/UIManager.ts:152-164 | a cached form that was not shown becomes shown with its cached instance and gets `Display` once; a form already shown gets nothing; no other entry changes |
| Transitions.PushToStack | assets/Script/UIFrame/UIManager.ts:169-179 | the old top is removed and gets `Freeze`; a cached form is pushed and gets `Display`; a stack of at most one entry stays that way |
| Transitions.EnterAndHideOthers | assets/Script/UIFrame/UIManager.ts:183-203 | a form already shown causes no change; otherwise every shown and stacked form gets `Hiding` while staying in place, and the form is added to the shown map with `Display` |
| Transitions.Exit | assets/Script/UIFrame/UIManager.ts:214-221 | a cached form leaves the shown map and gets `Hiding`, whether or not it was shown |
| Transitions.Pop | assets/Script/UIFrame/UIManager.ts:222-232 | what remains is a prefix of the stack: one entry pops with `Hiding`; two or more pop the top with `Hiding` and the next with `Redisplay`; an empty stack is left alone |
| Transitions.ExitAndDisplayOthers | assets/Script/UIFrame/UIManager.ts:233-249 | a form that is not shown causes no change; otherwise it leaves the shown map with `Hiding`, and every remaining shown form and every stacked form gets `Redisplay` |
| Manager.Show | assets/Script/UIFrame/UIManager.ts:45-66 | a blank name, or a name neither cached nor loadable, changes nothing; a successful show caches the form; the cache only grows, and only by the requested name |
| Manager.Ready | assets/Script/UIFrame/UIManager.ts:140-146 | the stack a show dispatches on is emptied exactly when the form has `IsClearStack` and is otherwise kept, so clearing only discards entries; the shown map is untouched and the cache is the one after the lookup |
| Manager.Close | assets/Script/UIFrame/UIManager.ts:71-88 | a blank name or a form never loaded changes nothing; closing never touches the cache, and only the named form can leave the shown map |
| Properties.InitialInv | assets/Script/UIFrame/UIManager.ts:18-21 | a fresh manager with empty tables satisfies the invariant |
| Properties.ShownAndStackedAreDisjoint | assets/Script/UIFrame/UIManager.ts:18-21 | under the invariant, no form is both shown and on the stack |
| Properties.ShowPreservesInv | assets/Script/UIFrame/UIManager.ts:45-66 | every show keeps the invariant, including the at-most-one-entry stack |
| Properties.ClosePreservesInv | assets/Script/UIFrame/UIManager.ts:71-88 | every close keeps the invariant |
| Properties.ShowUsesCache | assets/Script/UIFrame/UIManager.ts:93-100 | once a form is cached, showing it gives the same result under any configuration, so its prefab is never loaded again |
| Properties.ShowNormal | assets/Script/UIFrame/UIManager.ts:56-57 | a Normal show of a form already shown sends nothing; otherwise the form is added with `Display` once; the stack is cleared only when the form asks for it |
| Properties.ShowReverseChange | assets/Script/UIFrame/UIManager.ts:59-60 | a ReverseChange show leaves exactly the new form on the stack, freezes the previous top unless the stack was cleared first, and displays the new form |
| Properties.ShowHideOther | assets/Script/UIFrame/UIManager.ts:62-63 | a HideOther show of a form already shown sends nothing; otherwise every shown and stacked form is hidden, none is removed, and the new form is added and displayed |
| Properties.ShowClearStack | assets/Script/UIFrame/UIManager.ts:51-53 | an `IsClearStack` form empties the stack before dispatch, and the stacked forms it discards get no callback |
| Properties.ShowIdempotent | assets/Script/UIFrame/UIManager.ts:156-187 | showing a Normal or HideOther form a second time changes nothing and sends nothing, through the already-shown guards of `LoadUIToCurrentCache` (line 157) and `EnterUIFormsAndHideOther` (lines 186-187) |
| Properties.ReshowTopOfStack | assets/Script/UIFrame/UIManager.ts:169-179 | showing again the ReverseChange form on top of the stack leaves the state as it was; when the form does not have `IsClearStack` it gets both `Freeze` and `Display`, and when it does the stack is cleared first and it gets only `Display` |
| Properties.CloseNormal | assets/Script/UIFrame/UIManager.ts:77-78 | a Normal close removes the form from the shown map and always sends `Hiding` to it |
| Properties.CloseReverseChange | assets/Script/UIFrame/UIManager.ts:80-81 | a ReverseChange close ignores which name it is given: it pops the top with `Hiding`, and does nothing on an empty stack |
| Properties.DeepPopUnreachable | assets/Script/UIFrame/UIManager.ts:223-227 | under the invariant, a pop empties the stack and never sends `Redisplay` |
| Properties.CloseHideOther | assets/Script/UIFrame/UIManager.ts:83-84 | a HideOther close of a form not shown does nothing; otherwise the form is removed with `Hiding` and every other shown or stacked form gets `Redisplay` |
| Properties.NormalRoundTrip | assets/Script/UIFrame/UIManager.ts:214-221 | showing a Normal form that was not shown and then closing it restores the shown map and the stack, with one `Display` and one `Hiding` |
| Properties.HideOtherRoundTrip | assets/Script/UIFrame/UIManager.ts:233-241 | showing a HideOther form that was not shown and then closing it restores the shown map and the stack |
| Properties.HideOtherRestoresOthers | assets/Script/UIFrame/UIManager.ts:243-248 | the forms hidden by a HideOther show are exactly the forms its close redisplays: the shown and the stacked ones |
| Properties.StackedRoundTrip | assets/Script/UIFrame/UIManager.ts:228-231 | on an empty stack, showing a ReverseChange form and closing it leaves the stack empty, with one `Display` and one `Hiding` |
| Runs.ApplyPreservesInv | assets/Script/UIFrame/UIManager.ts:45-88 | any single public call keeps the invariant |
| Runs.Run | assets/Script/UIFrame/UIManager.ts:130 | over any sequence of calls, no cached form is ever removed or replaced, only forms some call asked to show are ever loaded, and the invariant holds throughout |
| Runs.ApplyCoherent | assets/Script/UIFrame/UIManager.ts:93-100 | a single public call keeps every cached form equal to what its name loads, because the cache is written only with a successful load of the requested name |
| Runs.RunCoherent | assets/Script/UIFrame/UIManager.ts:130 | over any sequence of calls with one configuration, the cache only ever holds forms that configuration loads under their own names |
| Runs.UnconfiguredIsNoOp | assets/Script/UIFrame/UIManager.ts:46-74 | from a fresh manager, after any calls, showing or closing a name with no path or whose prefab has no form component changes nothing and sends nothing |
| Runs.ReachableStackAtMostOne | assets/Script/UIFrame/UIManager.ts:170-178 | from a fresh manager, the stack never holds more than one form and no form is both shown and stacked |
| Scenarios.StackHistoryNotKept | assets/Script/UIFrame/UIManager.ts:169-179 | showing two ReverseChange forms leaves only the second on the stack with the first frozen; closing the second empties the stack and the first is never redisplayed |

## Left out

- Engine lifecycle and singleton plumbing (`onLoad`, `GetInstance`, `InitRootCanvasLoading`, `addPersistRootNode`, UIManager.ts:25-39, 255-257): Cocos runtime glue with no effect on the tables.
- Attaching the form's node to the Normal, Fixed or PopUp surface and deactivating it (UIManager.ts:118-129): scene-graph work. The surface tag `UIForms_Type` is not part of `Forms.Form`.
- `UILoader.loadRes` and `cc.instantiate` (UIManager.ts:112-114): asset I/O is replaced by the `Config.prefabs` lookup. A load that throws rejects the call before any table changes, which has the same effect on the state as a prefab without a form component.
- The `async`/`await` suspension in `ShowUIForms`: each show is one atomic transition, so two concurrent shows of the same unloaded name cannot race.
- The hard-coded path table of `InitUIFormsPathData` (UIManager.ts:261-270): the path table is a parameter.
- The bodies of `DisPlay`, `Hiding`, `ReDisPlay` and `Freeze`: `BaseUIForm.ts` is not part of this model. The callbacks appear only as emitted events.
- The order of callbacks within one call: events are a multiset. The order of the `for..in` loops over the shown map (UIManager.ts:190-192, 243-245) depends on JavaScript object iteration order. The rest of the order is fixed by the code and is dropped as well: `Freeze` of the old top comes before `DisPlay` (UIManager.ts:172, 177); the `Hiding` loops come before `DisPlay` (UIManager.ts:190-195, 202); `Hiding` of the closed form comes before the `ReDisPlay` loops (UIManager.ts:238, 243-248). The one reachable case where this loses information is showing again the ReverseChange form already on top of the stack, when the form does not have `IsClearStack`. That form gets `Freeze` and then `DisPlay`, and ends displayed. (With `IsClearStack` the stack is emptied first and the form gets only `DisPlay`.) The model's events `{Freeze, Display}` for that form cannot say which came last (`Properties.ReshowTopOfStack`).
- Keys inherited from `Object.prototype` (a form named `toString`, say): the model's maps hold only their own entries.
- Show modes other than the three above: `config/SysDefine.ts`, which defines `UIFormShowMode`, is not part of this model.
- The boolean result of `ClearStackArray` (UIManager.ts:140-146): its only caller ignores it.
- `assets/Script/UIFrame/TipsManager.ts`: it stores two form names and forwards to `openUIForm`, `closeUIForm` and `getInstance`, which `UIManager` does not define.
- Properties.ShowReverseChange: stated only for states that satisfy `Manager.Inv`. From a stack of two or more entries, `Transitions.PushToStack` gives the result.
- Properties.CloseReverseChange: stated only for states that satisfy `Manager.Inv`. From a deeper stack, `Transitions.Pop` gives the result.
- Properties.ShowClearStack: stated only for states that satisfy `Manager.Inv`.

=== FILE: events.dfy ===
/** Callbacks sent to many forms at once. */
module Events {
  import opened Forms

  /** One `cb` callback to every form registered under a name in `names`
      (the `for (let key in map)` loops of the source). */
  function NotifyAll(cb: Callback, names: set<string>): multiset<Event>
  {
    multiset(set n | n in names :: Event(cb, n))
  }

  /** One `cb` callback per stack entry (the `forEach` loops of the source). */
  function NotifyEach(cb: Callback, names: seq<string>): multiset<Event>
    decreases |names|
  {
    if names == [] then multiset{} else multiset{Event(cb, names[0])} + NotifyEach(cb, names[1..])
  }

  /** A broadcast over a set reaches each of its names exactly once, with
      the given callback, and nothing else. */
  lemma NotifyAllCount(cb: Callback, names: set<string>, e: Event)
    ensures NotifyAll(cb, names)[e] == if e.callback == cb && e.form in names then 1 else 0
  {
    if e.callback == cb && e.form in names {
      assert e in set n | n in names :: Event(cb, n);
    }
  }

  /** A broadcast over the stack reaches each name as often as it is
      stacked, with the given callback, and nothing else. */
  lemma {:induction false} NotifyEachCount(cb: Callback, names: seq<string>, e: Event)
    ensures NotifyEach(cb, names)[e] == if e.callback == cb then multiset(names)[e.form] else 0
    decreases |names|
  {
    if names != [] {
      NotifyEachCount(cb, names[1..], e);
      assert names == [names[0]] + names[1..];
    }
  }

  /** A broadcast to a set of names and a stack, plus one more callback to
      another form, reaches a form exactly when it is in one of them. */
  lemma Notified(cb: Callback, names: set<string>, stack: seq<string>, other: Event, k: string)
    requires other.form != k
    ensures Event(cb, k) in NotifyAll(cb, names) + NotifyEach(cb, stack) + multiset{other} <==>
      k in names || k in stack
  {
    var e := Event(cb, k);
    NotifyAllCount(cb, names, e);
    NotifyEachCount(cb, stack, e);
    assert (NotifyAll(cb, names) + NotifyEach(cb, stack) + multiset{other})[e] ==
      NotifyAll(cb, names)[e] + NotifyEach(cb, stack)[e];
  }
}

=== FILE: forms.dfy ===
/** The data model of the UI form manager: how a loaded form is configured,
    the callbacks the manager sends to forms, and the manager's state. */
module Forms {

  /** Some/None, used for values the source represents with `null`. */
  datatype Option<+T> = None | Some(value: T)

  /** How a form takes part in showing and closing (`UIFormShowMode`). */
  datatype ShowMode =
    | Normal         // shown and hidden independently of other forms
    | ReverseChange  // kept on the reverse-switch stack
    | HideOther      // hides every other form while it is shown

  /** The static configuration a loaded form carries (`CurrentUIType`).
      The surface it is attached to (`UIForms_Type`) only matters to the
      scene graph and is not part of this model. */
  datatype Form = Form(showMode: ShowMode, isClearStack: bool)

  /** The four callbacks the manager invokes on a form instance:
      `DisPlay`, `Hiding`, `ReDisPlay` and `Freeze`. */
  datatype Callback = Display | Hiding | Redisplay | Freeze

  /** One callback sent to the form registered under `form`. */
  datatype Event = Event(callback: Callback, form: string)

  /** The manager's state.
      - `all`: every form loaded so far, by name (the load cache);
      - `shown`: the forms currently shown in Normal or HideOther mode;
      - `stack`: the reverse-switch stack, top at the end. Each form
        instance belongs to exactly one name, so the stack records names. */
  datatype State = State(all: map<string, Form>, shown: map<string, Form>, stack: seq<string>)

  /** The result of one public call: the new state and the multiset of
      callbacks it sent. The order of callbacks within a call is not
      modelled; README's Left out says which order the code fixes. */
  datatype Step = Step(state: State, events: multiset<Event>)

  /** The state of a freshly created manager. */
  const Initial: State := State(map[], map[], [])

  /** A call that changes nothing and sends nothing. */
  function NoOp(st: State): Step
  {
    Step(st, multiset{})
  }

  /** `uiFormName == "" || uiFormName == null`. */
  predicate Blank(name: Option<string>)
  {
    name.None? || name.value == ""
  }

  /** Every entry of `m` is kept, with the same value, in `m'`. */
  ghost predicate Extends(m: map<string, Form>, m': map<string, Form>)
  {
    forall k :: k in m ==> k in m' && m'[k] == m[k]
  }

  /** The top of the stack (the last element pushed). */
  function Top(stack: seq<string>): string
    requires |stack| > 0
  {
    stack[|stack| - 1]
  }
}

=== FILE: loading.dfy ===
/** Loading forms: the name-to-path table, the prefab lookup and the cache
    of loaded forms. */
module Loading {
  import opened Forms

  /** What the host supplies for loading.
      - `paths`: the form-name to prefab-path table (`_MapFormsPaths`);
      - `prefabs`: for each prefab path that loads and carries a
        `BaseUIForm` component, that component's configuration. A path
        that is absent here stands for a prefab without the component. */
  datatype Config = Config(paths: map<string, string>, prefabs: map<string, Form>)

  /** The form `name` would load as if it were not cached yet. */
  function LoadForm(cfg: Config, name: string): (r: Option<Form>)
    ensures r.Some? <==>
      name in cfg.paths && cfg.paths[name] != "" && cfg.paths[name] in cfg.prefabs
    ensures r.Some? ==> r.value == cfg.prefabs[cfg.paths[name]]
  {
    if name !in cfg.paths || cfg.paths[name] == "" then None
    else if cfg.paths[name] !in cfg.prefabs then None
    else Some(cfg.prefabs[cfg.paths[name]])
  }

  /** The form a show of `name` works with: the cached one when there is
      one, otherwise a freshly loaded one. It is the abbreviation the
      contracts of `Manager.Show` use; `LoadCached` finds the same form. */
  function Resolve(all: map<string, Form>, cfg: Config, name: string): Option<Form>
  {
    if name in all then Some(all[name]) else LoadForm(cfg, name)
  }

  /** The cache after a lookup, together with the form found. */
  datatype Loaded = Loaded(all: map<string, Form>, form: Form)

  /** Looks `name` up in the cache and loads it on a miss, caching the
      result only when the load succeeded. */
  function LoadCached(all: map<string, Form>, cfg: Config, name: string): (r: Option<Loaded>)
    // a cached form is reused and the configuration is not consulted
    ensures name in all ==> r == Some(Loaded(all, all[name]))
    // a miss succeeds exactly when the form can be loaded
    ensures name !in all ==> (r.Some? <==> LoadForm(cfg, name).Some?)
    // on success the form is cached under its name, and nothing else changes
    ensures r.Some? ==> name in r.value.all && r.value.all[name] == r.value.form
    ensures r.Some? ==> Extends(all, r.value.all) && r.value.all.Keys == all.Keys + {name}
    // the form found is the one `Resolve` names
    ensures r.Some? <==> Resolve(all, cfg, name).Some?
    ensures r.Some? ==> r.value.form == Resolve(all, cfg, name).value
  {
    if name in all then Some(Loaded(all, all[name]))
    else match LoadForm(cfg, name)
      case None => None
      case Some(f) => Some(Loaded(all[name := f], f))
  }
}

=== FILE: manager.dfy ===
/** The two public entry points of `UIManager`, `ShowUIForms` and
    `CloseUIForms`, and the invariant every reachable state keeps. */
module Manager {
  import opened Forms
  import opened Loading
  import opened Transitions

  /** What holds of every state reachable from `Initial`:
      - a shown form is cached, under the same instance, and is not a
        ReverseChange form;
      - a stacked form is cached and is a ReverseChange form;
      - the stack holds at most one entry, because a push pops first. */
  ghost predicate Inv(st: State)
  {
    && (forall k :: k in st.shown ==>
          k in st.all && st.shown[k] == st.all[k] && st.all[k].showMode != ReverseChange)
    && (forall i :: 0 <= i < |st.stack| ==>
          st.stack[i] in st.all && st.all[st.stack[i]].showMode == ReverseChange)
    && |st.stack| <= 1
  }

  /** `ShowUIForms`: resolve the form through the cache, clear the stack if
      the form asks for it, then dispatch on its show mode. */
  function Show(st: State, cfg: Config, name: Option<string>): (r: Step)
    // a blank name changes nothing
    ensures Blank(name) ==> r == NoOp(st)
    // a name that is neither cached nor loadable changes nothing
    ensures !Blank(name) && Resolve(st.all, cfg, name.value).None? ==> r == NoOp(st)
    // a successful show caches the form; the cache only grows, and only by this name
    ensures !Blank(name) && Resolve(st.all, cfg, name.value).Some? ==>
      name.value in r.state.all && r.state.all[name.value] == Resolve(st.all, cfg, name.value).value
    ensures Extends(st.all, r.state.all)
    ensures r.state.all.Keys <= st.all.Keys + (if Blank(name) then {} else {name.value})
  {
    if Blank(name) then NoOp(st)
    else
      match LoadCached(st.all, cfg, name.value)
      case None => NoOp(st)
      case Some(ld) => Dispatch(Ready(st, ld), name.value, ld.form.showMode)
  }

  /** The stack a show of `f` dispatches on (`ClearStackArray`): emptied,
      without callbacks, when `f` has `IsClearStack`. */
  function Cleared(st: State, f: Form): seq<string>
  {
    if f.isClearStack then [] else st.stack
  }

  /** The state a show dispatches on: the cache after the lookup, and the
      stack cleared when the form asks for it. The shown map is untouched. */
  function Ready(st: State, ld: Loaded): (r: State)
    ensures r.all == ld.all && r.shown == st.shown
    ensures r.stack == Cleared(st, ld.form)
    // clearing only ever discards entries
    ensures |r.stack| <= |st.stack| && r.stack == st.stack[..|r.stack|]
  {
    State(ld.all, st.shown, Cleared(st, ld.form))
  }

  /** The `switch` on the show mode of `ShowUIForms`. */
  function Dispatch(st: State, n: string, mode: ShowMode): Step
  {
    match mode
    case Normal => LoadToCurrent(st, n)
    case ReverseChange => PushToStack(st, n)
    case HideOther => EnterAndHideOthers(st, n)
  }

  /** `CloseUIForms`: a form that was never loaded is ignored; otherwise
      dispatch on the cached form's show mode. */
  function Close(st: State, name: Option<string>): (r: Step)
    // a blank name or a form never loaded changes nothing
    ensures Blank(name) ==> r == NoOp(st)
    ensures !Blank(name) && name.value !in st.all ==> r == NoOp(st)
    // closing never loads and never evicts
    ensures r.state.all == st.all
    // the shown map only loses entries, and only the named one
    ensures r.state.shown.Keys <= st.shown.Keys
    ensures forall k :: k in st.shown && (Blank(name) || k != name.value) ==>
      k in r.state.shown && r.state.shown[k] == st.shown[k]
  {
    if Blank(name) then NoOp(st)
    else
      var n := name.value;
      if n !in st.all then NoOp(st)
      else match st.all[n].showMode
        case Normal => Exit(st, n)
        case ReverseChange => Pop(st)
        case HideOther => ExitAndDisplayOthers(st, n)
  }
}

=== FILE: properties.dfy ===
/** What `Show` and `Close` do, one lemma per show mode, and how a show and
    the matching close relate. */
module Properties {
  import opened Forms
  import opened Loading
  import opened Events
  import opened Transitions
  import opened Manager

  /* ---------------------------------------------------------------------
     The invariant
     --------------------------------------------------------------------- */

  lemma InitialInv()
    ensures Inv(Initial)
  {
  }

  /** A shown form is never also on the stack. */
  lemma ShownAndStackedAreDisjoint(st: State)
    requires Inv(st)
    ensures forall i :: 0 <= i < |st.stack| ==> st.stack[i] !in st.shown
  {
  }

  lemma ShowPreservesInv(st: State, cfg: Config, name: Option<string>)
    requires Inv(st)
    ensures Inv(Show(st, cfg, name).state)
  {
    if !Blank(name) {
      match LoadCached(st.all, cfg, name.value) {
        case None =>
        case Some(ld) =>
          assert Inv(Ready(st, ld));
          DispatchPreservesInv(Ready(st, ld), name.value, ld.form.showMode);
      }
    }
  }

  /** Dispatching a cached form on its own show mode keeps the invariant. */
  lemma DispatchPreservesInv(st: State, n: string, mode: ShowMode)
    requires Inv(st) && n in st.all && st.all[n].showMode == mode
    ensures Inv(Dispatch(st, n, mode).state)
  {
    match mode
    case Normal =>
    case ReverseChange =>
      var r := PushToStack(st, n).state;
      assert r.stack == [n];
    case HideOther =>
  }

  lemma ClosePreservesInv(st: State, name: Option<string>)
    requires Inv(st)
    ensures Inv(Close(st, name).state)
  {
  }

  /* ---------------------------------------------------------------------
     Loading is cached
     --------------------------------------------------------------------- */

  /** Once a form is cached, showing it never consults the configuration
      again: the prefab is loaded at most once per name. */
  lemma ShowUsesCache(st: State, cfg1: Config, cfg2: Config, n: string)
    requires n in st.all
    ensures Show(st, cfg1, Some(n)) == Show(st, cfg2, Some(n))
  {
  }

  /* ---------------------------------------------------------------------
     Show, by mode
     --------------------------------------------------------------------- */

  lemma ShowNormal(st: State, cfg: Config, n: string, f: Form)
    requires n != "" && Resolve(st.all, cfg, n) == Some(f) && f.showMode == Normal
    ensures var r := Show(st, cfg, Some(n));
      && r.state.stack == Cleared(st, f)
      && (n in st.shown ==> r.state.shown == st.shown && r.events == multiset{})
      && (n !in st.shown ==> r.state.shown == st.shown[n := f] && r.events == multiset{Event(Display, n)})
  {
  }

  lemma ShowReverseChange(st: State, cfg: Config, n: string, f: Form)
    requires Inv(st)
    requires n != "" && Resolve(st.all, cfg, n) == Some(f) && f.showMode == ReverseChange
    ensures var r := Show(st, cfg, Some(n));
      && r.state.stack == [n]
      && r.state.shown == st.shown
      && r.events ==
           (if !f.isClearStack && |st.stack| == 1 then multiset{Event(Freeze, st.stack[0])} else multiset{})
           + multiset{Event(Display, n)}
  {
  }

  lemma ShowHideOther(st: State, cfg: Config, n: string, f: Form)
    requires n != "" && Resolve(st.all, cfg, n) == Some(f) && f.showMode == HideOther
    ensures var r := Show(st, cfg, Some(n));
      && r.state.stack == Cleared(st, f)
      && (n in st.shown ==> r.state.shown == st.shown && r.events == multiset{})
      && (n !in st.shown ==>
            && r.state.shown == st.shown[n := f]
            && r.events ==
                 NotifyAll(Hiding, st.shown.Keys) + NotifyEach(Hiding, Cleared(st, f))
                 + multiset{Event(Display, n)})
  {
  }

  /** A form with `IsClearStack` empties the stack before anything else,
      and the forms it discards get no callback. */
  lemma ShowClearStack(st: State, cfg: Config, n: string, f: Form)
    requires Inv(st)
    requires n != "" && Resolve(st.all, cfg, n) == Some(f) && f.isClearStack
    ensures var r := Show(st, cfg, Some(n));
      && r.state.stack == (if f.showMode == ReverseChange then [n] else [])
      && (forall e :: e in r.events ==> e.form == n || e.form in st.shown)
      && (forall i, cb :: 0 <= i < |st.stack| && st.stack[i] != n ==> Event(cb, st.stack[i]) !in r.events)
  {
  }

  /** Showing a Normal or HideOther form twice sends nothing the second time. */
  lemma ShowIdempotent(st: State, cfg: Config, n: string, f: Form)
    requires n != "" && Resolve(st.all, cfg, n) == Some(f) && f.showMode != ReverseChange
    ensures var once := Show(st, cfg, Some(n)).state;
      Show(once, cfg, Some(n)) == NoOp(once)
  {
  }

  /** Showing again the ReverseChange form already on top of the stack
      leaves the state as it was. Without `IsClearStack` the form is frozen
      and displayed again: both callbacks reach the same form, so the events
      alone cannot tell which of the two it received last. With
      `IsClearStack` the stack is emptied first, and the form is only
      displayed. */
  lemma ReshowTopOfStack(st: State, cfg: Config, n: string)
    requires Inv(st) && st.stack == [n]
    requires n != "" && n in st.all
    ensures Show(st, cfg, Some(n)) ==
      Step(st, (if st.all[n].isClearStack then multiset{} else multiset{Event(Freeze, n)})
               + multiset{Event(Display, n)})
  {
    assert st.all[st.stack[0]].showMode == ReverseChange;
    var ready := Ready(st, Loaded(st.all, st.all[n]));
    assert Show(st, cfg, Some(n)) == PushToStack(ready, n);
    if st.all[n].isClearStack {
      assert ready == st.(stack := []);
      assert PushToStack(ready, n) == Step(st, multiset{Event(Display, n)});
    } else {
      assert ready == st;
      assert PushToStack(ready, n) == Step(st, multiset{Event(Freeze, n)} + multiset{Event(Display, n)});
    }
  }

  /* ---------------------------------------------------------------------
     Close, by mode
     --------------------------------------------------------------------- */

  /** A Normal close hides the form even when it was not shown. */
  lemma CloseNormal(st: State, n: string)
    requires n != "" && n in st.all && st.all[n].showMode == Normal
    ensures var r := Close(st, Some(n));
      r.state == st.(shown := st.shown - {n}) && r.events == multiset{Event(Hiding, n)}
  {
  }

  /** A ReverseChange close pops whatever is on top, whichever name it is
      given. */
  lemma CloseReverseChange(st: State, n: string, m: string)
    requires Inv(st)
    requires n != "" && n in st.all && st.all[n].showMode == ReverseChange
    requires m != "" && m in st.all && st.all[m].showMode == ReverseChange
    ensures Close(st, Some(n)) == Close(st, Some(m))
    ensures Close(st, Some(n)).state == st.(stack := [])
    ensures Close(st, Some(n)).events ==
      if |st.stack| == 1 then multiset{Event(Hiding, st.stack[0])} else multiset{}
  {
  }

  /** The branch of `PopUIForm` that pops two entries and redisplays the
      second is never taken from a reachable state. */
  lemma DeepPopUnreachable(st: State)
    requires Inv(st)
    ensures |Pop(st).state.stack| == 0
    ensures forall m :: Event(Redisplay, m) !in Pop(st).events
  {
  }

  lemma CloseHideOther(st: State, n: string)
    requires n != "" && n in st.all && st.all[n].showMode == HideOther
    ensures var r := Close(st, Some(n));
      && (n !in st.shown ==> r == NoOp(st))
      && (n in st.shown ==>
            && r.state == st.(shown := st.shown - {n})
            && r.events ==
                 multiset{Event(Hiding, n)}
                 + NotifyAll(Redisplay, st.shown.Keys - {n}) + NotifyEach(Redisplay, st.stack))
  {
  }

  /* ---------------------------------------------------------------------
     Show followed by close
     --------------------------------------------------------------------- */

  /** Showing a Normal form that was not shown and closing it again leaves
      the shown map and the stack as they were. */
  lemma NormalRoundTrip(st: State, cfg: Config, n: string, f: Form)
    requires n != "" && Resolve(st.all, cfg, n) == Some(f) && f.showMode == Normal && !f.isClearStack
    requires n !in st.shown
    ensures var shown := Show(st, cfg, Some(n));
      var closed := Close(shown.state, Some(n));
      && closed.state.shown == st.shown
      && closed.state.stack == st.stack
      && shown.events == multiset{Event(Display, n)}
      && closed.events == multiset{Event(Hiding, n)}
  {
  }

  /** Showing a HideOther form that was not shown and closing it again
      leaves the shown map and the stack as they were. */
  lemma HideOtherRoundTrip(st: State, cfg: Config, n: string, f: Form)
    requires n != "" && Resolve(st.all, cfg, n) == Some(f) && f.showMode == HideOther && !f.isClearStack
    requires n !in st.shown
    ensures var closed := Close(Show(st, cfg, Some(n)).state, Some(n));
      closed.state.shown == st.shown && closed.state.stack == st.stack
  {
  }

  /** Showing a HideOther form hides exactly the forms that closing it
      again redisplays: every other shown form and every stacked form. */
  lemma HideOtherRestoresOthers(st: State, cfg: Config, n: string, f: Form, k: string)
    requires n != "" && Resolve(st.all, cfg, n) == Some(f) && f.showMode == HideOther && !f.isClearStack
    requires n !in st.shown && k != n
    ensures Event(Hiding, k) in Show(st, cfg, Some(n)).events <==> k in st.shown || k in st.stack
    ensures Event(Redisplay, k) in Close(Show(st, cfg, Some(n)).state, Some(n)).events <==>
      k in st.shown || k in st.stack
  {
    var s1 := Show(st, cfg, Some(n));
    ShowHideOther(st, cfg, n, f);
    assert s1.state.shown.Keys - {n} == st.shown.Keys;
    CloseHideOther(s1.state, n);
    assert Close(s1.state, Some(n)).events ==
      NotifyAll(Redisplay, st.shown.Keys) + NotifyEach(Redisplay, st.stack) + multiset{Event(Hiding, n)};
    Notified(Hiding, st.shown.Keys, st.stack, Event(Display, n), k);
    Notified(Redisplay, st.shown.Keys, st.stack, Event(Hiding, n), k);
  }

  /** Showing a ReverseChange form on an empty stack and closing it again
      leaves the stack empty and the form hidden. */
  lemma StackedRoundTrip(st: State, cfg: Config, n: string, f: Form)
    requires Inv(st) && st.stack == []
    requires n != "" && Resolve(st.all, cfg, n) == Some(f) && f.showMode == ReverseChange
    ensures var shown := Show(st, cfg, Some(n));
      var closed := Close(shown.state, Some(n));
      && closed.state.stack == []
      && shown.events == multiset{Event(Display, n)}
      && closed.events == multiset{Event(Hiding, n)}
  {
  }
}

=== FILE: runs.dfy ===
/** Sequences of public calls on one manager, with a fixed configuration. */
module Runs {
  import opened Forms
  import opened Loading
  import opened Manager
  import opened Properties

  /** One call to `ShowUIForms` or `CloseUIForms`. */
  datatype Call = ShowCall(name: Option<string>) | CloseCall(name: Option<string>)

  function Apply(st: State, cfg: Config, c: Call): Step
  {
    match c
    case ShowCall(name) => Show(st, cfg, name)
    case CloseCall(name) => Close(st, name)
  }

  lemma ApplyPreservesInv(st: State, cfg: Config, c: Call)
    ensures Inv(st) ==> Inv(Apply(st, cfg, c).state)
  {
    if Inv(st) {
      match c
      case ShowCall(name) => ShowPreservesInv(st, cfg, name);
      case CloseCall(name) => ClosePreservesInv(st, name);
    }
  }

  /** The names the calls ask to show. */
  function Requested(calls: seq<Call>): set<string>
    decreases |calls|
  {
    if calls == [] then {}
    else
      var here := match calls[0]
        case ShowCall(Some(n)) => {n}
        case _ => {};
      here + Requested(calls[1..])
  }

  /** The calls made one after the other; the events are all callbacks sent. */
  function Run(st: State, cfg: Config, calls: seq<Call>): (r: Step)
    // nothing ever leaves the cache, and no cached form is replaced
    ensures Extends(st.all, r.state.all)
    // only forms some call asked to show are ever loaded
    ensures r.state.all.Keys <= st.all.Keys + Requested(calls)
    // every state along the way keeps the invariant
    ensures Inv(st) ==> Inv(r.state)
    decreases |calls|
  {
    if calls == [] then NoOp(st)
    else
      var first := Apply(st, cfg, calls[0]);
      ApplyPreservesInv(st, cfg, calls[0]);
      var rest := Run(first.state, cfg, calls[1..]);
      Step(rest.state, first.events + rest.events)
  }

  /** Every cached form is the one its name loads under `cfg`: the cache
      never holds a name the configuration cannot load. */
  ghost predicate Coherent(st: State, cfg: Config)
  {
    forall k :: k in st.all ==> LoadForm(cfg, k) == Some(st.all[k])
  }

  lemma ApplyCoherent(st: State, cfg: Config, c: Call)
    requires Coherent(st, cfg)
    ensures Coherent(Apply(st, cfg, c).state, cfg)
  {
  }

  /** A run with a fixed configuration only ever caches what that
      configuration loads. */
  lemma {:induction false} RunCoherent(st: State, cfg: Config, calls: seq<Call>)
    requires Coherent(st, cfg)
    ensures Coherent(Run(st, cfg, calls).state, cfg)
    decreases |calls|
  {
    if calls != [] {
      ApplyCoherent(st, cfg, calls[0]);
      RunCoherent(Apply(st, cfg, calls[0]).state, cfg, calls[1..]);
    }
  }

  /** From a fresh manager, a name with no path, or whose prefab has no form
      component, is ignored by both public calls, whatever came before. */
  lemma UnconfiguredIsNoOp(cfg: Config, calls: seq<Call>, n: string)
    requires LoadForm(cfg, n).None?
    ensures var st := Run(Initial, cfg, calls).state;
      Show(st, cfg, Some(n)) == NoOp(st) && Close(st, Some(n)) == NoOp(st)
  {
    RunCoherent(Initial, cfg, calls);
    var st := Run(Initial, cfg, calls).state;
    assert n !in st.all;
  }

  /** From a fresh manager, whatever is called, the stack never holds more
      than one form and no form is both shown and stacked. */
  lemma ReachableStackAtMostOne(cfg: Config, calls: seq<Call>)
    ensures |Run(Initial, cfg, calls).state.stack| <= 1
    ensures forall i :: 0 <= i < |Run(Initial, cfg, calls).state.stack| ==>
      Run(Initial, cfg, calls).state.stack[i] !in Run(Initial, cfg, calls).state.shown
  {
    InitialInv();
    ShownAndStackedAreDisjoint(Run(Initial, cfg, calls).state);
  }
}

=== FILE: scenarios.dfy ===
/** Concrete call sequences that pin down how the reverse-switch stack
    behaves as written. */
module Scenarios {
  import opened Forms
  import opened Loading
  import opened Transitions
  import opened Manager

  /** Two ReverseChange forms, "A" and "B", neither clearing the stack. */
  const TwoStacked: Config :=
    Config(map["A" := "a", "B" := "b"],
           map["a" := StackedA, "b" := StackedB])

  const StackedA: Form := Form(ReverseChange, false)
  const StackedB: Form := Form(ReverseChange, false)

  /** After "A" is shown: only "A" is loaded, and it is on the stack. */
  const AfterA: State := State(map["A" := StackedA], map[], ["A"])

  /** After "B" is shown as well: both are loaded, and only "B" is on the stack. */
  const AfterB: State := State(map["A" := StackedA, "B" := StackedB], map[], ["B"])

  /** Showing "A" and then "B" does not keep "A" underneath "B": the push
      pops "A" (freezing it), so closing "B" empties the stack and "A" is
      never redisplayed. A history of stacked forms is not kept. */
  lemma StackHistoryNotKept()
    ensures Show(Initial, TwoStacked, Some("A")) == Step(AfterA, multiset{Event(Display, "A")})
    ensures Show(AfterA, TwoStacked, Some("B")) == Step(AfterB, multiset{Event(Freeze, "A"), Event(Display, "B")})
    ensures Close(AfterB, Some("B")) == Step(AfterB.(stack := []), multiset{Event(Hiding, "B")})
  {
    ShowFirst();
    ShowSecond();
    CloseSecond();
  }

  lemma ShowFirst()
    ensures Show(Initial, TwoStacked, Some("A")) == Step(AfterA, multiset{Event(Display, "A")})
  {
    assert LoadForm(TwoStacked, "A") == Some(StackedA);
  }

  lemma ShowSecond()
    ensures Show(AfterA, TwoStacked, Some("B")) == Step(AfterB, multiset{Event(Freeze, "A"), Event(Display, "B")})
  {
    assert LoadForm(TwoStacked, "B") == Some(StackedB);
    assert "B" !in AfterA.all;
    assert Show(AfterA, TwoStacked, Some("B")) == PushToStack(AfterB.(stack := ["A"]), "B");
  }

  lemma CloseSecond()
    ensures Close(AfterB, Some("B")) == Step(AfterB.(stack := []), multiset{Event(Hiding, "B")})
  {
  }
}

=== FILE: transitions.dfy ===
/** The private steps of the manager, one per helper of `UIManager`. Each
    takes the state and the form name and returns the new state with the
    callbacks sent. They are written to stand alone, so each keeps the
    guards the source gives it even where its callers already ensure them. */
module Transitions {
  import opened Forms
  import opened Events

  /** Shows a Normal form (`LoadUIToCurrentCache`): a form already shown is
      left alone; a cached one is added to the shown map and displayed. */
  function LoadToCurrent(st: State, n: string): (r: Step)
    ensures r.state.all == st.all && r.state.stack == st.stack
    // afterwards a cached form is shown, with its cached instance
    ensures n in st.all && n !in st.shown ==> n in r.state.shown && r.state.shown[n] == st.all[n]
    // no other entry of the shown map is touched
    ensures r.state.shown.Keys == st.shown.Keys + (if n in st.all then {n} else {})
    ensures forall k :: k in st.shown ==> r.state.shown[k] == st.shown[k]
    // `Display` is sent exactly when the form becomes shown
    ensures r.events == if n in st.all && n !in st.shown then multiset{Event(Display, n)} else multiset{}
  {
    if n in st.shown then NoOp(st)
    else if n !in st.all then NoOp(st)
    else Step(st.(shown := st.shown[n := st.all[n]]), multiset{Event(Display, n)})
  }

  /** Pushes a ReverseChange form (`PushUIFormToStack`). The current top is
      popped and frozen first; the new form is displayed and pushed only
      when it is cached. */
  function PushToStack(st: State, n: string): (r: Step)
    ensures r.state.all == st.all && r.state.shown == st.shown
    // the previous top is gone and the new form, if cached, is on top
    ensures r.state.stack ==
      (if |st.stack| > 0 then st.stack[..|st.stack| - 1] else []) + (if n in st.all then [n] else [])
    // the stack never grows past one entry
    ensures |st.stack| <= 1 ==> |r.state.stack| <= 1
    // the old top is frozen and the new form displayed, and nothing else
    ensures forall e ::
              r.events[e] ==
                (if |st.stack| > 0 && e == Event(Freeze, Top(st.stack)) then 1 else 0)
                + (if n in st.all && e == Event(Display, n) then 1 else 0)
  {
    var popped := if |st.stack| > 0 then st.stack[..|st.stack| - 1] else [];
    var frozen := if |st.stack| > 0 then multiset{Event(Freeze, Top(st.stack))} else multiset{};
    if n !in st.all then Step(st.(stack := popped), frozen)
    else Step(st.(stack := popped + [n]), frozen + multiset{Event(Display, n)})
  }

  /** Shows a HideOther form (`EnterUIFormsAndHideOther`). Unless it is
      already shown, every shown form and every stacked form is hidden,
      and neither leaves its place; then the form, if cached, is added to
      the shown map and displayed. */
  function EnterAndHideOthers(st: State, n: string): (r: Step)
    ensures r.state.all == st.all && r.state.stack == st.stack
    ensures n == "" || n in st.shown ==> r == NoOp(st)
    ensures n != "" && n !in st.shown ==>
      && r.state.shown.Keys == st.shown.Keys + (if n in st.all then {n} else {})
      && (forall k :: k in st.shown ==> r.state.shown[k] == st.shown[k])
      && (n in st.all ==> r.state.shown[n] == st.all[n])
      && r.events == NotifyAll(Hiding, st.shown.Keys) + NotifyEach(Hiding, st.stack)
                     + (if n in st.all then multiset{Event(Display, n)} else multiset{})
  {
    if n == "" || n in st.shown then NoOp(st)
    else
      var hidden := NotifyAll(Hiding, st.shown.Keys) + NotifyEach(Hiding, st.stack);
      if n !in st.all then Step(st, hidden)
      else Step(st.(shown := st.shown[n := st.all[n]]), hidden + multiset{Event(Display, n)})
  }

  /** Closes a Normal form (`ExitUIForms`): a cached form is hidden and
      dropped from the shown map, whether or not it was shown. */
  function Exit(st: State, n: string): (r: Step)
    ensures r.state.all == st.all && r.state.stack == st.stack
    ensures n == "" || n !in st.all ==> r == NoOp(st)
    ensures n != "" && n in st.all ==>
      && n !in r.state.shown
      && r.state.shown == st.shown - {n}
      && r.events == multiset{Event(Hiding, n)}
  {
    if n == "" || n !in st.all then NoOp(st)
    else Step(st.(shown := st.shown - {n}), multiset{Event(Hiding, n)})
  }

  /** Closes a ReverseChange form (`PopUIForm`). The name is not consulted:
      the top is popped and hidden; with two or more entries the next one
      is popped too and redisplayed. */
  function Pop(st: State): (r: Step)
    ensures r.state.all == st.all && r.state.shown == st.shown
    // what remains is a prefix of the old stack
    ensures |r.state.stack| <= |st.stack| && r.state.stack == st.stack[..|r.state.stack|]
    ensures |st.stack| == 0 ==> r == NoOp(st)
    ensures |st.stack| == 1 ==> r.state.stack == [] && r.events == multiset{Event(Hiding, st.stack[0])}
    ensures |st.stack| >= 2 ==>
      && |r.state.stack| == |st.stack| - 2
      && r.events == multiset{Event(Hiding, st.stack[|st.stack| - 1]), Event(Redisplay, st.stack[|st.stack| - 2])}
  {
    var len := |st.stack|;
    if len >= 2 then
      Step(st.(stack := st.stack[..len - 2]),
           multiset{Event(Hiding, st.stack[len - 1]), Event(Redisplay, st.stack[len - 2])})
    else if len >= 1 then
      Step(st.(stack := []), multiset{Event(Hiding, st.stack[0])})
    else NoOp(st)
  }

  /** Closes a HideOther form (`ExitUIFormsAndDisplayOther`). A shown form
      is hidden and dropped from the shown map; then every form still
      shown and every stacked form is redisplayed. */
  function ExitAndDisplayOthers(st: State, n: string): (r: Step)
    ensures r.state.all == st.all && r.state.stack == st.stack
    ensures n == "" || n !in st.shown ==> r == NoOp(st)
    ensures n != "" && n in st.shown ==>
      && r.state.shown == st.shown - {n}
      && r.events == multiset{Event(Hiding, n)}
                     + NotifyAll(Redisplay, st.shown.Keys - {n}) + NotifyEach(Redisplay, st.stack)
  {
    if n == "" || n !in st.shown then NoOp(st)
    else
      var rest := st.shown - {n};
      Step(st.(shown := rest),
           multiset{Event(Hiding, n)} + NotifyAll(Redisplay, rest.Keys) + NotifyEach(Redisplay, st.stack))
  }
}
